=== FILE: README.md ===
# Book-Trade storefront screens: a Dafny model

This project models the state logic of the storefront app's React Native screens. Each piece is written as pure functions over immutable records, and the properties the screens rely on are proved about them.

- **Checkout** (`Checkout`): resolves the selected product ids against the catalog and sums the prices. It also models the cash / credit-card choice, the per-item date picker, and the per-item agreed date, stored as a `DD/MM/YYYY` string.
- **Home search** (`Home`, `Text`): the search box filters the fetched products by name, ignoring ASCII case. A query that is blank after trimming shows every product. The model also covers how the product request's outcome changes the screen state.
- **Profile settings** (`Settings`): a buffer of the user's eight-field record. Six fields can be edited through a modal or a date picker. The record is loaded from the server and saved back under the server's field names (`username` ↔ `userName`).
- **Tab navigator** (`MainTabs`): pressing back twice within 2000 ms exits the app. Each tab route maps to an icon name and a label.
- **Product detail** (`ProductDetail`): finds the first catalog entry with a given id. When there is none, the screen renders nothing.

Shared pieces:
- `Options`: an optional value.
- `Seqs`: the order-preserving filter and the subsequence relation.
- `Decimal`: `String(n)`, `padStart(2, '0')`, `split` and reading numbers back.
- `Catalog`: the product record and price sums.

Points about the checkout code that the model keeps:
- Checked-out items appear in catalog order (`fake_products.filter(...)`), whatever the order of the selected ids.
- The note and meeting-location inputs are uncontrolled, so nothing stores them.
- The agreed date is kept as the formatted `DD/MM/YYYY` string.
- The checkout button's handler is `() => null`.
- An empty checkout list shows the server-error text (`Checkout.RenderList`).

The source mixes number and string product ids: the route passes `productId: string[]`, while the date map and picker are keyed by `number`. The model uses one id type, compared with `===`; "## Left out" says what that assumes. Prices are whole minor units (`nat`).

The model takes these as parameters instead of calling them:
- the clock: `Date.now()`, and `new Date()` as `now`
- `new Date(string)`, as `parse`
- `toISOString().split('T')[0]`, as `isoDay`
- the calendar fields of a picked date (year, zero-based month, day)
- network outcomes: a reply code and body, a status, or a thrown request

## Model

| member | source | states |
|---|---|---|
| Checkout.SelectedProducts | frontend/app/tabs/cart/checkout.tsx:22-26 | a catalog entry is checked out iff its id is among the selected ids, and the result is a subsequence of the catalog (catalog order; unknown ids dropped) |
| Checkout.SelectedMultiplicity | frontend/app/tabs/cart/checkout.tsx:24-26 | each entry appears exactly as often as in the catalog when selected and never otherwise, so repeating an id in the selection never repeats a line |
| Checkout.SelectedDistinct | frontend/app/tabs/cart/checkout.tsx:24-26 | with a catalog of distinct ids, the checked-out list has distinct ids |
| Checkout.SelectionIsASet | frontend/app/tabs/cart/checkout.tsx:22-28 | two selections with the same set of ids give the same items and total, whatever their order, repetitions or quantities |
| Checkout.CatalogOrderWins | frontend/app/tabs/cart/checkout.tsx:24-26 | selecting ["b", "a"] from catalog [a, b] yields [a, b] |
| Checkout.UnknownIdsDropped | frontend/app/tabs/cart/checkout.tsx:24-28 | selecting ["b1", "b2"] where only b1 (price 15) exists yields [b1] and total 15 |
| Catalog.SumPrices | frontend/app/tabs/cart/checkout.tsx:28 | accumulating prices left to right, as `reduce` does from 0, equals the recursive price sum |
| Catalog.SumAppend | frontend/app/tabs/cart/checkout.tsx:28 | the price sum of a concatenation is the sum of the two sums |
| Checkout.RenderList | frontend/app/tabs/cart/checkout.tsx:115-119 | the list shows the checked-out entries, or the server-error text exactly when none is checked out |
| Checkout.EmptyNoticeIffNothingMatches | frontend/app/tabs/cart/checkout.tsx:22-26 | the server-error text shows exactly when no catalog entry carries a selected id |
| Checkout.TotalAmount | frontend/app/tabs/cart/checkout.tsx:28 | the displayed amount is the price sum of the checked-out entries; quantities are not read |
| Checkout.EmptySelectionTotal | frontend/app/tabs/cart/checkout.tsx:24-28 | selecting nothing checks out nothing and totals 0 |
| Checkout.TotalBounded | frontend/app/tabs/cart/checkout.tsx:28 | the total never exceeds the price sum of the whole catalog |
| Checkout.SelectingOneMore | frontend/app/tabs/cart/checkout.tsx:24-28 | adding one id not already selected raises the total by exactly the prices of the catalog entries with that id |
| Checkout.SelectPayment | frontend/app/tabs/cart/checkout.tsx:103 | choosing an option stores exactly that option and changes nothing else |
| Checkout.PaymentOptionsOffered | frontend/app/tabs/cart/checkout.tsx:123-124 | exactly the two options cash and credit card are offered, with distinct stored values "cash" and "creditCard", and choosing an option stores its own value |
| Checkout.StartsWithCash | frontend/app/tabs/cart/checkout.tsx:19-29 | the screen opens on "cash", with no picker open and every entry showing the placeholder |
| Checkout.OpenDatePicker | frontend/app/tabs/cart/checkout.tsx:76 | tapping an entry's date row opens the picker for that entry's id and no other id (so under every entry carrying that id), leaving dates and payment alone |
| Checkout.PickerUnderAtMostOneEntry | frontend/app/tabs/cart/checkout.tsx:83 | with a catalog of distinct ids, the picker is shown under at most one checked-out entry |
| Checkout.PickerRepeatsForRepeatedId | frontend/app/tabs/cart/checkout.tsx:83 | the picker is keyed by id: an id listed twice in the catalog shows it under both entries |
| Checkout.HandleDateChange | frontend/app/tabs/cart/checkout.tsx:31-42 | the picker always closes; with a date and an id only that id's key is set or overwritten with the formatted date and every other key keeps its date; otherwise the dates are unchanged |
| Decimal.PadStart2 | frontend/app/tabs/cart/checkout.tsx:34-36 | `padStart(2, '0')`: length max(2, n), the input as suffix, zeros before it, never truncated |
| Decimal.NatToString | frontend/app/tabs/cart/checkout.tsx:34-36 | `String(n)`: non-empty, all digits, no leading zero, a single character exactly below ten |
| Checkout.FormatDateRoundTrip | frontend/app/tabs/cart/checkout.tsx:34-36 | reading back a stored date string gives (day, month + 1, year) |
| Checkout.FormatDateShape | frontend/app/tabs/cart/checkout.tsx:34-36 | for a two-digit day and month and a four-digit year the string is ten characters, digits except '/' at positions 2 and 5, and starts the day or month with '0' exactly when it is below ten |
| Checkout.DateLabelAfterChoice | frontend/app/tabs/cart/checkout.tsx:80 | after choosing a date for an id, every entry with that id shows the formatted date, entries with any other id show what they showed before, and no picker is open |
| Checkout.NoDateShowsPlaceholder | frontend/app/tabs/cart/checkout.tsx:80 | an id without a stored date shows the placeholder under each of its entries |
| Text.TrimEmptyIffBlank | frontend/app/tabs/index.tsx:45 | `trim()` yields "" exactly when every character is ECMAScript whitespace or a line terminator |
| Text.ContainsIffOccurs | frontend/app/tabs/index.tsx:50 | the positional `includes` search succeeds exactly when the needle occurs as a contiguous block |
| Text.Lower | frontend/app/tabs/index.tsx:50 | lower-casing keeps the length and maps each ASCII capital to its small letter, leaving other characters alone |
| Text.LowerKeepsBlankness | frontend/app/tabs/index.tsx:45-50 | lower-casing neither creates nor removes whitespace |
| Home.NameMatchesIffOccurs | frontend/app/tabs/index.tsx:49-51 | a product passes the name test exactly when the lower-cased query occurs in its lower-cased name |
| Home.InitialAgreesWithBox | frontend/app/tabs/index.tsx:14-17 | the screen mounts with the spinner on, an empty box and both lists empty, and that state already agrees with the box |
| Home.HandleSearch | frontend/app/tabs/index.tsx:43-54 | the box text is always stored; a blank query shows all products; otherwise each product is shown exactly as often as it is listed when its lower-cased name contains the lower-cased query and never when not, in list order (a subsequence of the products) |
| Home.ClearSearch | frontend/app/tabs/index.tsx:56-59 | clearing gives the same state as typing "": empty text, all products shown |
| Home.SearchKeepsListInAgreement | frontend/app/tabs/index.tsx:43-59 | after typing or clearing, the shown list agrees with the box: all products for a blank box, otherwise exactly the matching products with their multiplicities, in list order |
| Home.SearchIgnoresQueryCase | frontend/app/tabs/index.tsx:48-52 | searching for the lower-cased query shows the same list as the query itself |
| Home.SearchUsesUntrimmedQuery | frontend/app/tabs/index.tsx:45-50 | trimming only decides blankness: "ab " does not match a product named "ab" |
| Home.FetchProducts | frontend/app/tabs/index.tsx:19-34 | a reply with code 200 puts the same body in both lists and clears loading; any other reply or a thrown request leaves both lists unchanged with loading raised; the box text is kept either way |
| Home.FetchDiscardsActiveFilter | frontend/app/tabs/index.tsx:24-27 | a successful fetch shows every fetched product while the box still holds a query some of them fail, so the list no longer agrees with the box |
| Home.FailedFetchKeepsSpinning | frontend/app/tabs/index.tsx:21-33 | as written, a non-200 reply or a thrown request leaves `loading` true |
| Home.FetchProductsSettled | frontend/app/tabs/index.tsx:19-34 | corrected handling: the same list updates as the original, with loading false after every outcome |
| Home.SettledDiffersOnlyInLoading | frontend/app/tabs/index.tsx:19-34 | the corrected handling agrees with the original except for `loading`, and agrees entirely on a 200 reply |
| Settings.Set | frontend/app/tabs/profile/settings.tsx:78-83 | writing one key gives it the new value and leaves all seven other keys as they were |
| Settings.EditableKeys | frontend/app/tabs/profile/settings.tsx:34-41 | six rows with distinct keys; a key is editable exactly when it is neither `_id` nor `password` |
| Settings.HandleFieldPress | frontend/app/tabs/profile/settings.tsx:65-74 | the birthday row opens the date picker preset to the stored birthday or now, and not the modal; any other row opens the modal holding that field's current text; the record is unchanged |
| Settings.EditModalValue | frontend/app/tabs/profile/settings.tsx:191-205 | typing or picking a gender replaces the modal's value; the record, selected row, modal, picker and spinner are kept |
| Settings.HandleSave | frontend/app/tabs/profile/settings.tsx:76-85 | with no selected row nothing changes (the modal stays as it is); otherwise only the selected key takes the modal's value (a date as its ISO day) and the modal closes, with the selected row, modal value, picker and spinner kept |
| Settings.SaveKeepsIdAndPassword | frontend/app/tabs/profile/settings.tsx:34-41 | a save from a state whose selected row is one of the six listed rows never changes `_id` or `password` |
| Settings.InitialState | frontend/app/tabs/profile/settings.tsx:18-32 | the screen mounts with no row selected, modal, picker and spinner hidden, the modal value set to now, and every field of the record empty |
| Settings.Step | frontend/app/tabs/profile/settings.tsx:43-124 | every handler keeps the selected row among the listed rows, and every handler except the record load keeps the id and the password |
| Settings.Run | frontend/app/tabs/profile/settings.tsx:43-124 | any sequence of handler calls keeps the selected row among the listed rows |
| Settings.ReachableSaveKeepsIdAndPassword | frontend/app/tabs/profile/settings.tsx:34-85 | from every state reachable from mounting, saving the modal never changes `_id` or `password` |
| Settings.UnloadedKeepsIdAndPassword | frontend/app/tabs/profile/settings.tsx:34-124 | until a record is loaded from the server, no sequence of taps, edits, saves or answers changes `_id` or `password` |
| Settings.PressThenSaveIsIdentity | frontend/app/tabs/profile/settings.tsx:65-85 | opening a text row and saving what it preloaded leaves the record as it was |
| Settings.HandleDateChange | frontend/app/tabs/profile/settings.tsx:87-95 | the picker always hides; only a supplied date changes the record, and then only `birthday`; the modal, its value, the selected row and the spinner are kept |
| Settings.CloseModal | frontend/app/tabs/profile/settings.tsx:97-99 | the modal hides and the buffered record, selection, modal value, picker and spinner are kept |
| Settings.FromServer | frontend/app/tabs/profile/settings.tsx:48-57 | loading copies every field to the field of the same name, except that `username` goes to `userName` |
| Settings.ToServer | frontend/app/tabs/profile/settings.tsx:104-113 | the save payload carries every field under the same name, except that `userName` is sent as `username` |
| Settings.WireRoundTrip | frontend/app/tabs/profile/settings.tsx:48-113 | load then save sends back exactly what was loaded, and save then load gives back the buffer |
| Settings.LoadUser | frontend/app/tabs/profile/settings.tsx:43-63 | a fetched record replaces the buffer (saving it would send the fetched record back) and nothing else changes; a failed fetch changes nothing |
| Settings.StartSaveAll | frontend/app/tabs/profile/settings.tsx:101-113 | saving shows the spinner, keeps the buffer, selected row, modal, its value and the picker, and sends a payload that loads back as the buffer |
| Settings.FinishSaveAll | frontend/app/tabs/profile/settings.tsx:114-124 | the screen goes back exactly on status 200 and shows the error otherwise (other status or thrown request); the spinner stops on both paths, and the buffer, selected row, modal, its value and the picker are kept |
| MainTabs.OnBackPress | frontend/app/navigation/MainTabNavigator.tsx:16-27 | the press is always consumed; it exits iff a truthy previous press is recorded less than 2000 ms ago; an exit keeps the state, otherwise the press time is recorded |
| MainTabs.DoublePressExits | frontend/app/navigation/MainTabNavigator.tsx:19-24 | from the start a first press at a non-zero time never exits, and a second press less than 2000 ms after it does |
| MainTabs.SlowSecondPressRestarts | frontend/app/navigation/MainTabNavigator.tsx:19-24 | a press 2000 ms or more after the recorded one does not exit and records itself, and a further press exactly 2000 ms after that does not exit either |
| MainTabs.ZeroTimestampNeverArms | frontend/app/navigation/MainTabNavigator.tsx:19 | a press recorded at timestamp 0 is falsy and cannot arm an exit |
| MainTabs.IconOutlineSuffix | frontend/app/navigation/MainTabNavigator.tsx:34-43 | for each route the unfocused icon is the focused icon followed by "-outline" |
| MainTabs.TabsAreDistinct | frontend/app/navigation/MainTabNavigator.tsx:31-62 | the five routes are each registered once, the initial route Home among them, with pairwise distinct labels and icons |
| ProductDetail.FindProduct | frontend/app/tabs/index/productDetail.tsx:15 | absent iff no entry has the id; a found product has the requested id and is the first such entry in catalog order |
| ProductDetail.FindReturnsFirst | frontend/app/tabs/index/productDetail.tsx:15 | if position k holds the first entry with the id, the lookup returns exactly that entry |
| ProductDetail.Render | frontend/app/tabs/index/productDetail.tsx:15-19 | the screen renders nothing exactly when no entry has the id, and otherwise renders the entry `find` returns: the first catalog entry with that id |

## Left out

- Layout, styles, icons as components, toasts and alerts, and the Modal, Picker and DateTimePicker widgets: presentation only.
- `fetch`, `asyncGet`, `asyncPost`, `getUserId`, `navigation.goBack` and `BackHandler.exitApp`: I/O and foreign calls. Their outcomes enter as parameters: a reply code and body, an HTTP status, a fetched record, or a thrown request.
- The `Date` methods (`getDate`, `getMonth`, `getFullYear`, `toISOString`, `toLocaleDateString`, `Date.now`): they depend on the clock, the time zone and the locale. The model takes the calendar fields, a millisecond `Moment`, and the `parse`/`isoDay` functions as inputs.
- Settings: `toLocaleDateString` display of the birthday in the list is not modelled; it is locale-dependent.
- Text.Lower: only ASCII letters are lower-cased; Unicode case mapping is not modelled.
- Catalog.Product: prices are whole minor units, not JavaScript floating-point numbers. The product record keeps only the fields the modelled logic reads.
- React lifecycle: `useEffect`, `useFocusEffect`, batching of state updates, and the back handler being registered again on every render without removal. These are framework and concurrency concerns; the model treats each handler call as one atomic step over the latest state.
- Home: the `message` text of a failed reply only feeds an alert.
- Checkout: no order submission, note or meeting-location storage, since the code has none.
- Catalog.ProductId: the route's ids and the catalog's ids are assumed to share one representation. As typed, the checkout route passes `productId: string[]` (frontend/app/navigation/type.ts:32) while `selectedDates` and `showDatePickerFor` are keyed by `number` (checkout.tsx:19-20). Likewise the home list navigates with `item._id` (index.tsx:65) while the detail screen compares it with `p.id` (productDetail.tsx:15). If the ids differ in type or field, `includes` and `===` never match: checkout then shows only the server-error text with a total of 0, and the detail screen renders nothing. The model does not cover that mismatch.
- Settings.FromServer: every field of the server's reply is a string here. In the source a missing field reads as `undefined`, which the modal preload turns into "" (`|| ""`, settings.tsx:71) and the list shows as "立刻設定" (settings.tsx:163); loading and saving back such a record would carry `undefined` for it rather than "". That case is not modelled.
- backend/routes/user_routes.py and backend/models/chat_model.py: Flask routing and MongoDB calls outside the screens' logic. The `fake_products` data file and the `Product` interface are not part of this model.
- frontend/app/tabs/profile/evaluate.tsx and pending.tsx: static screens with no state.
- frontend/app/navigation/type.ts: route parameter types only. `Checkout.RouteParams` carries the checkout route's fields.

## Findings

| source | as written | input that shows it | evidently intended | confidence | as-written member | corrected member |
|---|---|---|---|---|---|---|
| frontend/app/tabs/index.tsx:21-33 | `loading` is set to true before the request and set back to false only on a reply with code 200 | a reply with code 500, or a request that throws | the list's refresh indicator (`refreshing={loading}`) stops after every outcome, as it does on success | medium, not executed | Home.FailedFetchKeepsSpinning | Home.FetchProductsSettled |

=== FILE: catalog.dfy ===
/** The catalog entry every screen displays, and price arithmetic over lists of them. */
module Catalog {
  import opened Seqs

  /** Product identifiers. The screens compare them with `===` only. */
  type ProductId = string

  /** A catalog entry. Prices are whole minor currency units. */
  datatype Product = Product(id: ProductId, name: string, author: string, price: nat)

  function IdOf(p: Product): ProductId {
    p.id
  }

  /** The sum of the prices of `items`. */
  function Sum(items: seq<Product>): nat {
    if |items| == 0 then 0 else items[0].price + Sum(items[1..])
  }

  /** The sum over a concatenation is the sum of the sums. */
  lemma {:induction false} SumAppend(a: seq<Product>, b: seq<Product>)
    ensures Sum(a + b) == Sum(a) + Sum(b)
  {
    if |a| == 0 {
      assert a + b == b;
    } else {
      assert (a + b)[1..] == a[1..] + b;
      SumAppend(a[1..], b);
    }
  }

  /** Filtering never raises the price sum. */
  lemma {:induction false} SumFilterBounded(f: Product -> bool, s: seq<Product>)
    ensures Sum(Filter(f, s)) <= Sum(s)
  {
    if |s| > 0 {
      SumFilterBounded(f, s[1..]);
      if f(s[0]) {
        assert Filter(f, s)[1..] == Filter(f, s[1..]);
      }
    }
  }

  /** When `h` holds exactly where one of the disjoint `f` and `g` holds,
      the sum over `h` is the sum over `f` plus the sum over `g`. */
  lemma {:induction false} SumFilterSplit(f: Product -> bool, g: Product -> bool, h: Product -> bool, s: seq<Product>)
    requires forall i :: 0 <= i < |s| ==> (h(s[i]) <==> f(s[i]) || g(s[i]))
    requires forall i :: 0 <= i < |s| ==> !(f(s[i]) && g(s[i]))
    ensures Sum(Filter(h, s)) == Sum(Filter(f, s)) + Sum(Filter(g, s))
  {
    if |s| > 0 {
      SumFilterSplit(f, g, h, s[1..]);
      if h(s[0]) { assert Filter(h, s)[1..] == Filter(h, s[1..]); }
      if f(s[0]) { assert Filter(f, s)[1..] == Filter(f, s[1..]); }
      if g(s[0]) { assert Filter(g, s)[1..] == Filter(g, s[1..]); }
    }
  }

  /** A price total accumulated from left to right, the way `reduce` does. */
  method SumPrices(items: seq<Product>) returns (total: nat)
    ensures total == Sum(items)
  {
    total := 0;
    var i := 0;
    while i < |items|
      invariant 0 <= i <= |items|
      invariant total == Sum(items[..i])
    {
      SumAppend(items[..i], [items[i]]);
      assert items[..i + 1] == items[..i] + [items[i]];
      total := total + items[i].price;
      i := i + 1;
    }
    assert items[..i] == items;
  }
}

=== FILE: checkout.dfy ===
/** The checkout screen (frontend/app/tabs/cart/checkout.tsx): which catalog
    entries are checked out, their total, the payment choice, and the agreed
    date recorded per entry. The checkout button itself does nothing, so no
    order submission is modelled. */
module Checkout {
  import opened Options
  import opened Seqs
  import opened Decimal
  import opened Catalog

  /** The parameters the cart screen navigates with. Only `productId` is read. */
  datatype RouteParams = RouteParams(productId: seq<ProductId>, quantity: seq<int>)

  /** The two payment options offered. */
  datatype Payment = Cash | CreditCard

  /** The string each option stores in the screen's state. */
  function PaymentValue(p: Payment): string {
    match p
    case Cash => "cash"
    case CreditCard => "creditCard"
  }

  /** The options in the order they are rendered. */
  const PaymentOptions: seq<Payment> := [Cash, CreditCard]

  /** A day chosen in the date picker: full year, zero-based month, day of month. */
  datatype CalendarDate = CalendarDate(year: int, month0: nat, day: nat) {
    /** The month counted from one, as written in a date. */
    function Month(): nat {
      month0 + 1
    }
  }

  /** The screen's own state: whose date picker is open, the dates agreed
      so far (already formatted), and the payment choice. */
  datatype CheckoutState = CheckoutState(
    pickerFor: Option<ProductId>,
    dates: map<ProductId, string>,
    payment: Payment)

  /** State on entering the screen: no picker open, no dates, cash. */
  const Initial: CheckoutState := CheckoutState(None, map[], Cash)

  /** Shown for an entry without an agreed date. */
  const DatePlaceholder: string := "請選擇約定時間"

  /** The `includes` test the screen filters the catalog with. */
  function SelectedBy(ids: seq<ProductId>): Product -> bool {
    (p: Product) => p.id in ids
  }

  /** The catalog entries whose id was selected, in catalog order. */
  function SelectedProducts(catalog: seq<Product>, params: RouteParams): (r: seq<Product>)
    ensures forall p :: p in r <==> p in catalog && p.id in params.productId
    ensures IsSubsequence(r, catalog)
  {
    FilterIsSubsequence(SelectedBy(params.productId), catalog);
    Filter(SelectedBy(params.productId), catalog)
  }

  /** The text the list shows when nothing is checked out. */
  const EmptyListText: string := "伺服器發生錯誤"

  /** What the list area shows: the checked-out entries, or the empty-list text. */
  datatype ListView = Entries(items: seq<Product>) | EmptyNotice(text: string)

  function RenderList(catalog: seq<Product>, params: RouteParams): (v: ListView)
    ensures v.EmptyNotice? <==> SelectedProducts(catalog, params) == []
    ensures v.EmptyNotice? ==> v.text == EmptyListText
    ensures v.Entries? ==> v.items == SelectedProducts(catalog, params)
  {
    var items := SelectedProducts(catalog, params);
    if items == [] then EmptyNotice(EmptyListText) else Entries(items)
  }

  /** The empty-list text shows exactly when no catalog entry carries a
      selected id. */
  lemma EmptyNoticeIffNothingMatches(catalog: seq<Product>, params: RouteParams)
    ensures RenderList(catalog, params).EmptyNotice?
            <==> forall i :: 0 <= i < |catalog| ==> catalog[i].id !in params.productId
  {
    var items := SelectedProducts(catalog, params);
    if items != [] {
      assert items[0] in items;
      var i :| 0 <= i < |catalog| && catalog[i] == items[0];
    } else {
      forall i | 0 <= i < |catalog| ensures catalog[i].id !in params.productId {
        assert catalog[i] !in items;
      }
    }
  }

  /** The amount shown at the bottom of the screen. */
  function Total(catalog: seq<Product>, params: RouteParams): nat {
    Sum(SelectedProducts(catalog, params))
  }

  /** The total, accumulated over the selected entries like `reduce` does. */
  method TotalAmount(catalog: seq<Product>, params: RouteParams) returns (total: nat)
    ensures total == Total(catalog, params)
  {
    total := SumPrices(SelectedProducts(catalog, params));
  }

  /** Each catalog entry is checked out exactly as often as it is listed in
      the catalog when selected, and not at all otherwise; selecting an id
      several times does not repeat it. */
  lemma SelectedMultiplicity(catalog: seq<Product>, params: RouteParams, p: Product)
    ensures multiset(SelectedProducts(catalog, params))[p]
            == (if p.id in params.productId then multiset(catalog)[p] else 0)
  {
    FilterMultiplicity(SelectedBy(params.productId), catalog, p);
  }

  /** With a catalog of distinct ids, no id is checked out twice. */
  lemma SelectedDistinct(catalog: seq<Product>, params: RouteParams)
    requires DistinctBy(IdOf, catalog)
    ensures DistinctBy(IdOf, SelectedProducts(catalog, params))
  {
    FilterKeepsDistinct(IdOf, SelectedBy(params.productId), catalog);
  }

  /** Only the set of selected ids matters: not their order, not repetitions,
      and not the quantities. */
  lemma SelectionIsASet(catalog: seq<Product>, a: RouteParams, b: RouteParams)
    requires forall id :: id in a.productId <==> id in b.productId
    ensures SelectedProducts(catalog, a) == SelectedProducts(catalog, b)
    ensures Total(catalog, a) == Total(catalog, b)
  {
    FilterCongruent(SelectedBy(a.productId), SelectedBy(b.productId), catalog);
  }

  /** Entries appear in catalog order, whatever order they were selected in. */
  lemma CatalogOrderWins()
    ensures var a := Product("a", "A", "", 10);
            var b := Product("b", "B", "", 20);
            SelectedProducts([a, b], RouteParams(["b", "a"], [1, 1])) == [a, b]
  {
    var a := Product("a", "A", "", 10);
    var b := Product("b", "B", "", 20);
    var f := (p: Product) => p.id in ["b", "a"];
    assert [a, b][1..] == [b];
    assert Filter(f, [b]) == [b] by { assert [b][1..] == []; }
  }

  /** Selected ids missing from the catalog are dropped; the rest are summed. */
  lemma UnknownIdsDropped()
    ensures var b1 := Product("b1", "Book", "", 15);
            && SelectedProducts([b1], RouteParams(["b1", "b2"], [1, 1])) == [b1]
            && Total([b1], RouteParams(["b1", "b2"], [1, 1])) == 15
  {
    var b1 := Product("b1", "Book", "", 15);
    assert [b1][1..] == [];
    assert Sum([b1]) == 15 by { assert [b1][1..] == []; }
  }

  /** Nothing selected means a total of zero. */
  lemma EmptySelectionTotal(catalog: seq<Product>, quantity: seq<int>)
    ensures SelectedProducts(catalog, RouteParams([], quantity)) == []
    ensures Total(catalog, RouteParams([], quantity)) == 0
  {
  }

  /** The total never exceeds the price of the whole catalog. */
  lemma TotalBounded(catalog: seq<Product>, params: RouteParams)
    ensures Total(catalog, params) <= Sum(catalog)
  {
    SumFilterBounded(SelectedBy(params.productId), catalog);
  }

  /** Selecting one more id, not selected before, raises the total by the
      price of the catalog entries carrying that id. */
  lemma SelectingOneMore(catalog: seq<Product>, ids: seq<ProductId>, quantity: seq<int>, id: ProductId)
    requires id !in ids
    ensures Total(catalog, RouteParams(ids + [id], quantity))
            == Total(catalog, RouteParams(ids, quantity)) + Sum(Filter((p: Product) => p.id == id, catalog))
  {
    SumFilterSplit(SelectedBy(ids), (p: Product) => p.id == id, SelectedBy(ids + [id]), catalog);
  }

  /** Choosing a payment option records exactly that option. */
  function SelectPayment(st: CheckoutState, p: Payment): (r: CheckoutState)
    ensures r.payment == p
    ensures r.pickerFor == st.pickerFor && r.dates == st.dates
  {
    st.(payment := p)
  }

  /** Exactly two options are offered, storing distinct values, and
      choosing an option stores that option's value. */
  lemma PaymentOptionsOffered(st: CheckoutState)
    ensures |PaymentOptions| == 2
    ensures forall p: Payment :: p in PaymentOptions
    ensures PaymentValue(Cash) != PaymentValue(CreditCard)
    ensures forall p: Payment :: PaymentValue(SelectPayment(st, p).payment) == PaymentValue(p)
  {
    forall p: Payment ensures p in PaymentOptions {
      match p
      case Cash => assert PaymentOptions[0] == p;
      case CreditCard => assert PaymentOptions[1] == p;
    }
  }

  /** The screen opens with cash selected, no dates and no picker. */
  lemma StartsWithCash(id: ProductId)
    ensures PaymentValue(Initial.payment) == "cash"
    ensures !IsPickerOpen(Initial, id)
    ensures DateLabel(Initial, id) == DatePlaceholder
  {
  }

  /** Tapping an entry's date row opens the picker for that entry's id and
      no other id, so under every entry carrying that id. */
  function OpenDatePicker(st: CheckoutState, id: ProductId): (r: CheckoutState)
    ensures IsPickerOpen(r, id)
    ensures forall other :: other != id ==> !IsPickerOpen(r, other)
    ensures r.dates == st.dates && r.payment == st.payment
  {
    st.(pickerFor := Some(id))
  }

  /** The picker is shown under every entry whose id was last tapped. */
  predicate IsPickerOpen(st: CheckoutState, id: ProductId) {
    st.pickerFor == Some(id)
  }

  /** With a catalog of distinct ids, at most one checked-out entry shows
      the picker at any time. */
  lemma PickerUnderAtMostOneEntry(catalog: seq<Product>, params: RouteParams, st: CheckoutState)
    requires DistinctBy(IdOf, catalog)
    ensures var items := SelectedProducts(catalog, params);
            forall i, j :: 0 <= i < j < |items| && IsPickerOpen(st, items[i].id) ==> !IsPickerOpen(st, items[j].id)
  {
    SelectedDistinct(catalog, params);
  }

  /** The picker is keyed by id, not by position: an id listed twice in the
      catalog shows the picker under both of its entries. */
  lemma PickerRepeatsForRepeatedId()
    ensures var p := Product("7", "n", "a", 1);
            var items := SelectedProducts([p, p], RouteParams(["7"], [1]));
            var st := OpenDatePicker(Initial, "7");
            |items| == 2 && IsPickerOpen(st, items[0].id) && IsPickerOpen(st, items[1].id)
  {
    var p := Product("7", "n", "a", 1);
    assert SelectedBy(["7"])(p);
  }

  /** `DD/MM/YYYY`: day and one-based month padded to two digits, year as is. */
  function FormatDate(d: CalendarDate): string {
    JoinDate(PadStart2(NatToString(d.day)), PadStart2(NatToString(d.Month())), IntToString(d.year))
  }

  /** The three parts of a date joined with slashes. */
  function JoinDate(day: string, month: string, year: string): string {
    day + "/" + month + "/" + year
  }

  /** Reads a `DD/MM/YYYY` string back as (day, month, year). */
  function ParseDate(s: string): Option<(nat, nat, int)> {
    var parts := Split(s, '/');
    if |parts| != 3 then None
    else
      match (ParseNat(parts[0]), ParseNat(parts[1]), ParseInt(parts[2]))
      case (Some(day), Some(month), Some(year)) => Some((day, month, year))
      case _ => None
  }

  lemma PaddedDigits(n: nat)
    ensures AllDigits(PadStart2(NatToString(n)))
    ensures '/' !in PadStart2(NatToString(n))
  {
    var s := NatToString(n);
    var r := PadStart2(s);
    forall i | 0 <= i < |r| ensures IsDigit(r[i]) {
      if i >= |r| - |s| {
        assert r[i] == r[|r| - |s|..][i - (|r| - |s|)];
      }
    }
    DigitsHaveNoSlash(r);
  }

  lemma YearHasNoSlash(y: int)
    ensures '/' !in IntToString(y)
  {
    if y < 0 {
      DigitsHaveNoSlash(NatToString(-y));
      assert IntToString(y) == "-" + NatToString(-y);
    } else {
      DigitsHaveNoSlash(NatToString(y));
    }
  }

  /** Three slash-free parts joined with slashes split back into those parts. */
  lemma SplitThree(a: string, b: string, c: string)
    requires '/' !in a && '/' !in b && '/' !in c
    ensures Split(a + "/" + b + "/" + c, '/') == [a, b, c]
  {
    assert a + "/" + b + "/" + c == a + ['/'] + (b + ['/'] + c);
    SplitAtSeparator(a, '/', b + ['/'] + c);
    SplitAtSeparator(b, '/', c);
    SplitWithoutSeparator(c, '/');
  }

  /** Reading back a stored date gives the day, the one-based month and the year. */
  lemma FormatDateRoundTrip(d: CalendarDate)
    ensures ParseDate(FormatDate(d)) == Some((d.day, d.Month(), d.year))
  {
    var a := PadStart2(NatToString(d.day));
    var b := PadStart2(NatToString(d.Month()));
    var c := IntToString(d.year);
    PaddedDigits(d.day);
    PaddedDigits(d.Month());
    YearHasNoSlash(d.year);
    SplitThree(a, b, c);
    ParsePadded(d.day);
    ParsePadded(d.Month());
    ParseIntToString(d.year);
    ParseJoined(a, b, c);
  }

  /** Parsing three slash-free parts joined with slashes parses each part. */
  lemma ParseJoined(a: string, b: string, c: string)
    requires Split(a + "/" + b + "/" + c, '/') == [a, b, c]
    requires ParseNat(a).Some? && ParseNat(b).Some? && ParseInt(c).Some?
    ensures ParseDate(a + "/" + b + "/" + c) == Some((ParseNat(a).value, ParseNat(b).value, ParseInt(c).value))
  {
  }

  /** `s` is laid out as `DD/MM/YYYY`; the two flags say whether the day
      and the month start with '0'. */
  predicate IsDateLayout(s: string, dayLead: bool, monthLead: bool) {
    && |s| == 10
    && s[2] == '/' && s[5] == '/'
    && IsDigit(s[0]) && IsDigit(s[1]) && IsDigit(s[3]) && IsDigit(s[4])
    && IsDigit(s[6]) && IsDigit(s[7]) && IsDigit(s[8]) && IsDigit(s[9])
    && (s[0] == '0' <==> dayLead)
    && (s[3] == '0' <==> monthLead)
  }

  /** Joining digit strings of lengths 2, 2 and 4 with slashes gives that layout. */
  lemma JoinedLayout(a: string, b: string, c: string, aLead: bool, bLead: bool)
    requires |a| == 2 && |b| == 2 && |c| == 4
    requires IsDigit(a[0]) && IsDigit(a[1]) && IsDigit(b[0]) && IsDigit(b[1])
    requires IsDigit(c[0]) && IsDigit(c[1]) && IsDigit(c[2]) && IsDigit(c[3])
    requires a[0] == '0' <==> aLead
    requires b[0] == '0' <==> bLead
    ensures IsDateLayout(JoinDate(a, b, c), aLead, bLead)
  {
    var s := JoinDate(a, b, c);
    assert s[0] == a[0] && s[1] == a[1] && s[3] == b[0] && s[4] == b[1];
    assert s[6] == c[0] && s[7] == c[1] && s[8] == c[2] && s[9] == c[3];
  }

  /** The padded day or month: two digits, starting with '0' exactly below ten. */
  lemma PaddedPart(n: nat)
    requires n < 100
    ensures var a := PadStart2(NatToString(n));
            |a| == 2 && IsDigit(a[0]) && IsDigit(a[1]) && (a[0] == '0' <==> n < 10)
  {
    PaddedDigits(n);
    PadLeadingZero(n);
  }

  /** A four-digit year: four digits. */
  lemma YearPart(y: int)
    requires 1000 <= y <= 9999
    ensures var c := IntToString(y);
            |c| == 4 && IsDigit(c[0]) && IsDigit(c[1]) && IsDigit(c[2]) && IsDigit(c[3])
  {
    NatDigits4(y);
  }

  /** For a two-digit day and month and a four-digit year the stored string
      is ten characters, slashes at positions 2 and 5, and a leading zero
      exactly when the day or month is below ten. */
  lemma FormatDateShape(d: CalendarDate)
    requires d.day < 100 && d.Month() < 100 && 1000 <= d.year <= 9999
    ensures IsDateLayout(FormatDate(d), d.day < 10, d.Month() < 10)
  {
    PaddedPart(d.day);
    PaddedPart(d.Month());
    YearPart(d.year);
    JoinedLayout(PadStart2(NatToString(d.day)), PadStart2(NatToString(d.Month())), IntToString(d.year),
                 d.day < 10, d.Month() < 10);
  }

  /** The padded spelling starts with '0' exactly for numbers below ten. */
  lemma PadLeadingZero(n: nat)
    requires n < 100
    ensures |PadStart2(NatToString(n))| == 2
    ensures PadStart2(NatToString(n))[0] == '0' <==> n < 10
  {
    var s := NatToString(n);
    if n >= 10 {
      assert s == NatToString(n / 10) + [DigitChar(n % 10)];
      assert |s| == 2;
    }
  }

  lemma NatDigits4(y: nat)
    requires 1000 <= y <= 9999
    ensures |NatToString(y)| == 4
  {
    assert NatToString(y) == NatToString(y / 10) + [DigitChar(y % 10)];
    assert NatToString(y / 10) == NatToString(y / 100) + [DigitChar((y / 10) % 10)];
    assert NatToString(y / 100) == NatToString(y / 1000) + [DigitChar((y / 100) % 10)];
  }

  /** The date picker's change handler: always closes the picker; with a
      chosen date and an entry id, records that entry's formatted date. */
  function HandleDateChange(st: CheckoutState, picked: Option<CalendarDate>, productId: Option<ProductId>): (r: CheckoutState)
    ensures r.pickerFor == None && r.payment == st.payment
    ensures picked.Some? && productId.Some? ==>
              && r.dates.Keys == st.dates.Keys + {productId.value}
              && r.dates[productId.value] == FormatDate(picked.value)
              && forall k :: k in st.dates && k != productId.value ==> r.dates[k] == st.dates[k]
    ensures picked.None? || productId.None? ==> r.dates == st.dates
  {
    var closed := st.(pickerFor := None);
    if picked.Some? && productId.Some? then
      closed.(dates := st.dates[productId.value := FormatDate(picked.value)])
    else closed
  }

  /** What the date row of an entry with id `id` shows: the date stored for
      that id, or the placeholder. */
  function DateLabel(st: CheckoutState, id: ProductId): string {
    if id in st.dates && st.dates[id] != "" then st.dates[id] else DatePlaceholder
  }

  /** After choosing a date for an id, every entry with that id shows the
      formatted date, entries with any other id show what they showed
      before, and no picker is open. */
  lemma DateLabelAfterChoice(st: CheckoutState, d: CalendarDate, id: ProductId, other: ProductId)
    requires other != id
    ensures DateLabel(HandleDateChange(st, Some(d), Some(id)), id) == FormatDate(d)
    ensures DateLabel(HandleDateChange(st, Some(d), Some(id)), other) == DateLabel(st, other)
    ensures !IsPickerOpen(HandleDateChange(st, Some(d), Some(id)), id)
  {
    assert |FormatDate(d)| >= 2;
  }

  /** An id without a stored date shows the placeholder under each of its entries. */
  lemma NoDateShowsPlaceholder(st: CheckoutState, id: ProductId)
    requires id !in st.dates
    ensures DateLabel(st, id) == DatePlaceholder
  {
  }
}

=== FILE: decimal.dfy ===
/** Decimal rendering as JavaScript's `String(n)` produces it for integers,
    `padStart(2, '0')`, and the reading-back direction used to state that a
    rendered date can be parsed again. */
module Decimal {
  import opened Options

  predicate IsDigit(c: char) {
    '0' <= c <= '9'
  }

  predicate AllDigits(s: string) {
    forall i :: 0 <= i < |s| ==> IsDigit(s[i])
  }

  function DigitChar(d: nat): (c: char)
    requires d < 10
    ensures IsDigit(c)
  {
    (48 + d) as char
  }

  function DigitValue(c: char): (d: nat)
    requires IsDigit(c)
    ensures d < 10
    ensures DigitChar(d) == c
  {
    (c as int - 48) as nat
  }

  /** `String(n)` for a non-negative integer: its shortest decimal spelling. */
  function NatToString(n: nat): (s: string)
    ensures |s| >= 1
    ensures AllDigits(s)
    ensures |s| > 1 ==> s[0] != '0'
    ensures n < 10 <==> |s| == 1
    decreases n
  {
    if n < 10 then [DigitChar(n)]
    else NatToString(n / 10) + [DigitChar(n % 10)]
  }

  /** `String(n)` for any integer: a leading '-' for negatives. */
  function IntToString(n: int): (s: string)
    ensures |s| >= 1
    ensures n < 0 <==> s[0] == '-'
  {
    if n < 0 then "-" + NatToString(-n) else NatToString(n)
  }

  /** The value of a string of decimal digits; leading zeros are allowed. */
  function DigitsValue(s: string): nat
    requires AllDigits(s)
  {
    if |s| == 0 then 0
    else DigitsValue(s[..|s| - 1]) * 10 + DigitValue(s[|s| - 1])
  }

  /** Reads a non-negative decimal number; `None` unless `s` is a non-empty run of digits. */
  function ParseNat(s: string): (r: Option<nat>)
    ensures r.Some? <==> |s| > 0 && AllDigits(s)
  {
    if |s| > 0 && AllDigits(s) then Some(DigitsValue(s)) else None
  }

  /** Reads an optionally '-'-signed decimal number. */
  function ParseInt(s: string): (r: Option<int>)
    ensures |s| > 0 && s[0] != '-' ==> r == (match ParseNat(s) case Some(n) => Some(n as int) case None => None)
  {
    if |s| > 0 && s[0] == '-' then
      match ParseNat(s[1..])
      case Some(n) => Some(-(n as int))
      case None => None
    else
      match ParseNat(s)
      case Some(n) => Some(n as int)
      case None => None
  }

  /** `s.padStart(2, '0')`: zeros in front up to length two; never truncates. */
  function PadStart2(s: string): (r: string)
    ensures |r| == if |s| < 2 then 2 else |s|
    ensures r[|r| - |s|..] == s
    ensures forall i :: 0 <= i < |r| - |s| ==> r[i] == '0'
  {
    if |s| < 2 then seq(2 - |s|, _ => '0') + s else s
  }

  /** Splits `s` at every occurrence of `sep`, like `s.split(sep)`. */
  function Split(s: string, sep: char): (parts: seq<string>)
    ensures |parts| >= 1
  {
    if |s| == 0 then [""]
    else if s[0] == sep then [""] + Split(s[1..], sep)
    else
      var rest := Split(s[1..], sep);
      [[s[0]] + rest[0]] + rest[1..]
  }

  lemma {:induction false} DigitsValueOfNatToString(n: nat)
    ensures DigitsValue(NatToString(n)) == n
    decreases n
  {
    var s := NatToString(n);
    if n >= 10 {
      DigitsValueOfNatToString(n / 10);
      assert s[..|s| - 1] == NatToString(n / 10);
    }
  }

  /** Reading back `String(n)` gives `n`. */
  lemma ParseNatToString(n: nat)
    ensures ParseNat(NatToString(n)) == Some(n)
  {
    DigitsValueOfNatToString(n);
  }

  /** Reading back `String(n)` gives `n`, negatives included. */
  lemma ParseIntToString(n: int)
    ensures ParseInt(IntToString(n)) == Some(n)
  {
    if n < 0 {
      ParseNatToString(-n);
      assert IntToString(n)[1..] == NatToString(-n);
    } else {
      ParseNatToString(n);
    }
  }

  /** Leading zeros do not change the value read. */
  lemma {:induction false} DigitsValueLeadingZero(s: string)
    requires AllDigits(s)
    ensures AllDigits("0" + s)
    ensures DigitsValue("0" + s) == DigitsValue(s)
    decreases |s|
  {
    var t := "0" + s;
    if |s| > 0 {
      assert t[..|t| - 1] == "0" + s[..|s| - 1];
      DigitsValueLeadingZero(s[..|s| - 1]);
    }
  }

  /** Padding a number with zeros does not change the number read back. */
  lemma ParsePadded(n: nat)
    ensures ParseNat(PadStart2(NatToString(n))) == Some(n)
  {
    var s := NatToString(n);
    ParseNatToString(n);
    if |s| < 2 {
      assert PadStart2(s) == "0" + s;
      DigitsValueLeadingZero(s);
    }
  }

  /** Splitting text that holds no separator yields the text itself. */
  lemma {:induction false} SplitWithoutSeparator(s: string, sep: char)
    requires sep !in s
    ensures Split(s, sep) == [s]
  {
    if |s| > 0 {
      assert s[0] != sep && sep !in s[1..];
      SplitWithoutSeparator(s[1..], sep);
      assert [s[0]] + s[1..] == s;
    }
  }

  /** A separator-free prefix followed by the separator splits off as the first part. */
  lemma {:induction false} SplitAtSeparator(a: string, sep: char, b: string)
    requires sep !in a
    ensures Split(a + [sep] + b, sep) == [a] + Split(b, sep)
  {
    var s := a + [sep] + b;
    if |a| == 0 {
      assert s[1..] == b;
    } else {
      assert s[1..] == a[1..] + [sep] + b;
      assert sep !in a[1..];
      SplitAtSeparator(a[1..], sep, b);
      assert [a[0]] + a[1..] == a;
    }
  }

  lemma DigitsHaveNoSlash(s: string)
    requires AllDigits(s)
    ensures '/' !in s
  {
  }
}

=== FILE: home.dfy ===
/** The home screen (frontend/app/tabs/index.tsx): the product list fetched
    from the server and the search box that filters it by name. */
module Home {
  import opened Seqs
  import opened Text
  import opened Catalog

  /** The screen's state hooks. */
  datatype HomeState = HomeState(
    loading: bool,
    searchText: string,
    products: seq<Product>,
    filtered: seq<Product>)

  /** State on mounting: loading, empty box, nothing fetched yet. */
  const Initial: HomeState := HomeState(true, "", [], [])

  /** On mounting the spinner runs, the box is empty, nothing is listed,
      and the (empty) list already agrees with the box. */
  lemma InitialAgreesWithBox()
    ensures Initial.loading && Initial.searchText == ""
    ensures |Initial.products| == 0 && |Initial.filtered| == 0
    ensures ListMatchesBox(Initial)
  {
    assert IsBlank("");
  }

  /** What the product request can end in: a JSON reply with its `code` and
      `body`, or an exception (no connection, unreadable JSON). */
  datatype FetchOutcome = Reply(code: int, body: seq<Product>) | Thrown

  predicate IsOkReply(outcome: FetchOutcome) {
    outcome.Reply? && outcome.code == 200
  }

  /** The per-product test of a non-blank query: lower-cased name includes
      the lower-cased, untrimmed query. */
  function NameMatches(query: string): Product -> bool {
    (p: Product) => Contains(Lower(p.name), Lower(query))
  }

  /** The name test, stated as an occurrence of the query in the name. */
  lemma NameMatchesIffOccurs(query: string)
    ensures forall p :: NameMatches(query)(p) <==> OccursIn(Lower(query), Lower(p.name))
  {
    forall p ensures NameMatches(query)(p) <==> OccursIn(Lower(query), Lower(p.name)) {
      ContainsIffOccurs(Lower(p.name), Lower(query));
    }
  }

  /** Each product occurs in the name filter's result exactly as often as in
      the list when its name matches, and not at all otherwise. */
  lemma NameFilterMultiplicity(products: seq<Product>, text: string)
    ensures forall p :: multiset(Filter(NameMatches(text), products))[p]
                        == if OccursIn(Lower(text), Lower(p.name)) then multiset(products)[p] else 0
  {
    NameMatchesIffOccurs(text);
    forall p ensures multiset(Filter(NameMatches(text), products))[p]
                     == if OccursIn(Lower(text), Lower(p.name)) then multiset(products)[p] else 0 {
      FilterMultiplicity(NameMatches(text), products, p);
    }
  }

  /** The list shown for `text` over `products`: everything for a blank
      query, otherwise every matching product exactly as often as it is
      listed, in list order. */
  function SearchResult(products: seq<Product>, text: string): (r: seq<Product>)
    ensures IsBlank(text) ==> r == products
    ensures !IsBlank(text) ==>
              forall p :: p in r <==> p in products && OccursIn(Lower(text), Lower(p.name))
    ensures !IsBlank(text) ==>
              forall p :: multiset(r)[p]
                          == if OccursIn(Lower(text), Lower(p.name)) then multiset(products)[p] else 0
    ensures IsSubsequence(r, products)
  {
    TrimEmptyIffBlank(text);
    NameMatchesIffOccurs(text);
    NameFilterMultiplicity(products, text);
    FilterIsSubsequence(NameMatches(text), products);
    SubsequenceReflexive(products);
    if Trim(text) == "" then products else Filter(NameMatches(text), products)
  }

  /** The box's change handler: records the typed text and refilters. */
  function HandleSearch(st: HomeState, text: string): (r: HomeState)
    ensures r.searchText == text
    ensures r.products == st.products && r.loading == st.loading
    ensures IsBlank(text) ==> r.filtered == st.products
    ensures !IsBlank(text) ==>
              forall p :: p in r.filtered <==> p in st.products && OccursIn(Lower(text), Lower(p.name))
    ensures !IsBlank(text) ==>
              forall p :: multiset(r.filtered)[p]
                          == if OccursIn(Lower(text), Lower(p.name)) then multiset(st.products)[p] else 0
    ensures IsSubsequence(r.filtered, st.products)
  {
    st.(searchText := text, filtered := SearchResult(st.products, text))
  }

  /** The clear button: the same as typing the empty string. */
  function ClearSearch(st: HomeState): (r: HomeState)
    ensures r == HandleSearch(st, "")
    ensures r.searchText == "" && r.filtered == st.products
  {
    st.(searchText := "", filtered := st.products)
  }

  /** The shown list agrees with the box: all products for a blank box;
      otherwise, in list order, each product as often as it is listed when
      its name contains the query, ignoring ASCII case, and never when not. */
  ghost predicate ListMatchesBox(st: HomeState) {
    && IsSubsequence(st.filtered, st.products)
    && (IsBlank(st.searchText) ==> st.filtered == st.products)
    && (!IsBlank(st.searchText) ==>
          forall p :: multiset(st.filtered)[p]
                      == if OccursIn(Lower(st.searchText), Lower(p.name)) then multiset(st.products)[p] else 0)
  }

  /** Typing and clearing always leave the list in agreement with the box. */
  lemma SearchKeepsListInAgreement(st: HomeState, text: string)
    ensures ListMatchesBox(HandleSearch(st, text))
    ensures ListMatchesBox(ClearSearch(st))
  {
    assert IsBlank("");
  }

  /** Handling of the product request. The request itself first raises
      `loading`; only a reply with code 200 stores the body, in both lists,
      and lowers `loading` again. */
  function FetchProducts(st: HomeState, outcome: FetchOutcome): (r: HomeState)
    ensures r.searchText == st.searchText
    ensures IsOkReply(outcome) ==>
              r.products == outcome.body && r.filtered == outcome.body && !r.loading
    ensures !IsOkReply(outcome) ==>
              r.products == st.products && r.filtered == st.filtered && r.loading
  {
    var started := st.(loading := true);
    if IsOkReply(outcome) then
      started.(products := outcome.body, filtered := outcome.body, loading := false)
    else started
  }

  /** A successful refresh shows every fetched product even while the box
      still holds a query that some of them do not match. */
  lemma FetchDiscardsActiveFilter()
    ensures var st := HomeState(false, "zz", [], []);
            var p := Product("1", "abc", "", 1);
            var r := FetchProducts(st, Reply(200, [p]));
            r.filtered == [p] && r.searchText == "zz" && !ListMatchesBox(r)
  {
    var p := Product("1", "abc", "", 1);
    NameMatchesIffOccurs("zz");
    assert !IsBlank("zz") by { assert !IsWhitespace("zz"[0]); }
    assert p !in SearchResult([p], "zz");
  }

  /** A failed request leaves the lists alone and, as written, never lowers
      `loading`: the list's refresh indicator keeps spinning. */
  lemma FailedFetchKeepsSpinning(st: HomeState, code: int, body: seq<Product>)
    requires code != 200
    ensures FetchProducts(st, Reply(code, body)).loading
    ensures FetchProducts(st, Thrown).loading
    ensures FetchProducts(st, Thrown).filtered == st.filtered
  {
  }

  /** Request handling with `loading` lowered on every path, which is what the
      success branch and the refresh indicator evidently rely on. */
  function FetchProductsSettled(st: HomeState, outcome: FetchOutcome): (r: HomeState)
    ensures !r.loading
    ensures r.searchText == st.searchText
    ensures IsOkReply(outcome) ==> r.products == outcome.body && r.filtered == outcome.body
    ensures !IsOkReply(outcome) ==> r.products == st.products && r.filtered == st.filtered
  {
    FetchProducts(st, outcome).(loading := false)
  }

  /** The corrected handling agrees with the original except for `loading`. */
  lemma SettledDiffersOnlyInLoading(st: HomeState, outcome: FetchOutcome)
    ensures FetchProductsSettled(st, outcome).(loading := true) == FetchProducts(st, outcome).(loading := true)
    ensures IsOkReply(outcome) ==> FetchProductsSettled(st, outcome) == FetchProducts(st, outcome)
  {
  }

  /** The query's letter case does not matter: searching for its
      lower-cased form shows the same list. */
  lemma SearchIgnoresQueryCase(st: HomeState, text: string)
    ensures HandleSearch(st, Lower(text)).filtered == HandleSearch(st, text).filtered
  {
    LowerIdempotent(text);
    LowerKeepsBlankness(text);
    TrimEmptyIffBlank(text);
    TrimEmptyIffBlank(Lower(text));
    FilterCongruent(NameMatches(Lower(text)), NameMatches(text), st.products);
  }

  /** Trimming only decides blankness: a trailing space stays part of the
      query, so it no longer matches a name without that space. */
  lemma SearchUsesUntrimmedQuery()
    ensures var p := Product("1", "ab", "", 1);
            HandleSearch(HomeState(false, "", [p], [p]), "ab ").filtered == []
  {
    var p := Product("1", "ab", "", 1);
    NameMatchesIffOccurs("ab ");
    assert !IsBlank("ab ") by { assert !IsWhitespace("ab "[0]); }
    assert |Lower("ab ")| == 3 && |Lower(p.name)| == 2;
    assert !OccursIn(Lower("ab "), Lower(p.name));
    var r := SearchResult([p], "ab ");
    if r != [] {
      assert r[0] in r;
    }
  }
}

=== FILE: main_tabs.dfy ===
/** The bottom tab navigator (frontend/app/navigation/MainTabNavigator.tsx):
    the press-back-twice-to-exit handler and the per-route icon and label. */
module MainTabs {
  import opened Options

  /** The exit window, in milliseconds. */
  const ExitWindowMs: int := 2000

  /** The timestamp of the last back press that did not exit, if any. */
  datatype BackState = BackState(lastBackPress: Option<int>)

  const InitialBack: BackState := BackState(None)

  /** The handler's effect: the next state, whether the app exits, and
      whether the press was consumed. */
  datatype BackResult = BackResult(state: BackState, exits: bool, handled: bool)

  /** JavaScript truthiness of the stored timestamp: `null` and `0` are false. */
  predicate IsRecorded(last: Option<int>) {
    last.Some? && last.value != 0
  }

  /** The back press handler at time `now`. */
  function OnBackPress(st: BackState, now: int): (r: BackResult)
    ensures r.handled
    ensures r.exits <==> IsRecorded(st.lastBackPress) && now - st.lastBackPress.value < ExitWindowMs
    ensures r.exits ==> r.state == st
    ensures !r.exits ==> r.state.lastBackPress == Some(now)
  {
    if IsRecorded(st.lastBackPress) && now - st.lastBackPress.value < ExitWindowMs then
      BackResult(st, true, true)
    else
      BackResult(BackState(Some(now)), false, true)
  }

  /** The first press never exits; a second one within the window does. */
  lemma DoublePressExits(t0: int, t1: int)
    requires t0 != 0 && t1 - t0 < ExitWindowMs
    ensures !OnBackPress(InitialBack, t0).exits
    ensures OnBackPress(OnBackPress(InitialBack, t0).state, t1).exits
  {
  }

  /** The window is strict: presses at least 2000 ms apart do not exit, and
      the later one restarts the window. */
  lemma SlowSecondPressRestarts(st: BackState, now: int)
    requires st.lastBackPress.Some? && now - st.lastBackPress.value >= ExitWindowMs
    ensures !OnBackPress(st, now).exits
    ensures OnBackPress(st, now).state == BackState(Some(now))
    ensures OnBackPress(OnBackPress(st, now).state, now + ExitWindowMs).exits == false
  {
  }

  /** A press at timestamp 0 is not recorded as truthy, so it cannot arm an exit. */
  lemma ZeroTimestampNeverArms(later: int)
    ensures !OnBackPress(OnBackPress(InitialBack, 0).state, later).exits
  {
  }

  /** The five tabs. */
  datatype Route = Home | Cart | Profile | Notification | Chat

  /** The routes in registration order. */
  const Routes: seq<Route> := [Cart, Chat, Home, Notification, Profile]

  const InitialRoute: Route := Home

  /** The icon name shown for a tab. */
  function TabIcon(r: Route, focused: bool): string {
    match r
    case Home => if focused then "home" else "home-outline"
    case Cart => if focused then "cart" else "cart-outline"
    case Profile => if focused then "person" else "person-outline"
    case Notification => if focused then "notifications" else "notifications-outline"
    case Chat => if focused then "chatbox" else "chatbox-outline"
  }

  /** The text under a tab. */
  function TabLabel(r: Route): string {
    match r
    case Home => "首頁"
    case Cart => "購物車"
    case Profile => "個人資料"
    case Notification => "通知"
    case Chat => "聊天"
  }

  /** Every tab's unfocused icon is its focused icon with `-outline` appended. */
  lemma IconOutlineSuffix(r: Route)
    ensures TabIcon(r, false) == TabIcon(r, true) + "-outline"
  {
  }

  /** Each tab is registered once, the initial tab among them, and no two
      tabs share a label or an icon. */
  lemma TabsAreDistinct()
    ensures forall r: Route :: r in Routes
    ensures forall i, j :: 0 <= i < j < |Routes| ==> Routes[i] != Routes[j]
    ensures InitialRoute in Routes
    ensures forall a: Route, b: Route :: a != b ==> TabLabel(a) != TabLabel(b)
    ensures forall a: Route, b: Route, f: bool :: a != b ==> TabIcon(a, f) != TabIcon(b, f)
  {
    forall r: Route ensures r in Routes {
      match r
      case Cart => assert Routes[0] == r;
      case Chat => assert Routes[1] == r;
      case Home => assert Routes[2] == r;
      case Notification => assert Routes[3] == r;
      case Profile => assert Routes[4] == r;
    }
  }
}

=== FILE: options.dfy ===
/** The optional value used wherever the screens test for `null`, `undefined`
    or a missing entry. */
module Options {

  datatype Option<+T> = None | Some(value: T)
}

=== FILE: product_detail.dfy ===
/** The product detail screen (frontend/app/tabs/index/productDetail.tsx):
    the catalog lookup by id and the not-found branch. */
module ProductDetail {
  import opened Options
  import opened Catalog

  /** `k` is the first catalog position carrying `id`. */
  predicate IsFirstWithId(catalog: seq<Product>, id: ProductId, k: int) {
    && 0 <= k < |catalog|
    && catalog[k].id == id
    && forall j :: 0 <= j < k ==> catalog[j].id != id
  }

  /** `catalog.find(p => p.id === id)`. */
  function FindProduct(catalog: seq<Product>, id: ProductId): (r: Option<Product>)
    ensures r.None? <==> forall i :: 0 <= i < |catalog| ==> catalog[i].id != id
    ensures r.Some? ==> r.value.id == id
    ensures r.Some? ==> exists k :: IsFirstWithId(catalog, id, k) && catalog[k] == r.value
  {
    if |catalog| == 0 then None
    else if catalog[0].id == id then
      assert IsFirstWithId(catalog, id, 0);
      Some(catalog[0])
    else
      var r := FindProduct(catalog[1..], id);
      if r.Some? then
        var k :| IsFirstWithId(catalog[1..], id, k) && catalog[1..][k] == r.value;
        assert IsFirstWithId(catalog, id, k + 1);
        r
      else
        assert forall i :: 1 <= i < |catalog| ==> catalog[i] == catalog[1..][i - 1];
        r
  }

  /** What the screen renders: nothing for an unknown id, else the product's page. */
  datatype DetailView = Nothing | Details(product: Product)

  function Render(catalog: seq<Product>, id: ProductId): (v: DetailView)
    ensures v.Nothing? <==> forall i :: 0 <= i < |catalog| ==> catalog[i].id != id
    ensures v.Details? ==> v.product.id == id && v.product in catalog
    ensures v.Details? ==> FindProduct(catalog, id) == Some(v.product)
  {
    match FindProduct(catalog, id)
    case None => Nothing
    case Some(p) => Details(p)
  }

  /** The found entry is the first one with that id: an earlier duplicate id
      hides every later one. */
  lemma FindReturnsFirst(catalog: seq<Product>, id: ProductId, k: nat)
    requires IsFirstWithId(catalog, id, k)
    ensures FindProduct(catalog, id) == Some(catalog[k])
  {
    var r := FindProduct(catalog, id);
    var k' :| IsFirstWithId(catalog, id, k') && catalog[k'] == r.value;
    assert k' == k;
  }
}

=== FILE: seqs.dfy ===
/** Generic sequence operations shared by the screens: the order-preserving
    `Array.prototype.filter`, the subsequence relation it produces, and
    key-distinctness. */
module Seqs {

  /** `s.filter(f)`: the elements of `s` satisfying `f`, in their original order. */
  function Filter<T(!new)>(f: T -> bool, s: seq<T>): (r: seq<T>)
    ensures |r| <= |s|
    ensures forall x :: x in r <==> x in s && f(x)
    ensures forall i :: 0 <= i < |r| ==> f(r[i])
  {
    if |s| == 0 then []
    else if f(s[0]) then [s[0]] + Filter(f, s[1..])
    else Filter(f, s[1..])
  }

  /** `a` is obtained from `b` by deleting elements, keeping the order of the rest. */
  predicate IsSubsequence<T(==)>(a: seq<T>, b: seq<T>)
  {
    if |a| == 0 then true
    else if |b| == 0 then false
    else if a[0] == b[0] then IsSubsequence(a[1..], b[1..])
    else IsSubsequence(a, b[1..])
  }

  /** No two positions of `s` carry the same key. */
  predicate DistinctBy<T, K(==)>(key: T -> K, s: seq<T>)
  {
    forall i, j :: 0 <= i < j < |s| ==> key(s[i]) != key(s[j])
  }

  /** Every sequence is a subsequence of itself. */
  lemma {:induction false} SubsequenceReflexive<T>(s: seq<T>)
    ensures IsSubsequence(s, s)
  {
    if |s| > 0 {
      SubsequenceReflexive(s[1..]);
    }
  }

  /** A subsequence of the tail of `b` is a subsequence of `b`. */
  lemma {:induction false} SubsequenceOfTail<T>(a: seq<T>, b: seq<T>)
    requires |b| > 0
    requires IsSubsequence(a, b[1..])
    ensures IsSubsequence(a, b)
    decreases |a| + |b|
  {
    if |a| > 0 && a[0] == b[0] {
      DropFirstOfSubsequence(a, b[1..]);
    }
  }

  /** Dropping the first element of a subsequence leaves a subsequence. */
  lemma {:induction false} DropFirstOfSubsequence<T>(a: seq<T>, c: seq<T>)
    requires |a| > 0
    requires IsSubsequence(a, c)
    ensures IsSubsequence(a[1..], c)
    decreases |a| + |c|
  {
    if a[0] == c[0] {
      SubsequenceOfTail(a[1..], c);
    } else {
      DropFirstOfSubsequence(a, c[1..]);
      SubsequenceOfTail(a[1..], c);
    }
  }

  /** Filtering keeps the order of what it keeps. */
  lemma {:induction false} FilterIsSubsequence<T(!new)>(f: T -> bool, s: seq<T>)
    ensures IsSubsequence(Filter(f, s), s)
  {
    if |s| == 0 {
    } else {
      FilterIsSubsequence(f, s[1..]);
      if f(s[0]) {
        var r := Filter(f, s);
        assert r[0] == s[0] && r[1..] == Filter(f, s[1..]);
      } else {
        SubsequenceOfTail(Filter(f, s[1..]), s);
      }
    }
  }

  /** Each element is kept exactly as often as it occurs, or dropped entirely. */
  lemma {:induction false} FilterMultiplicity<T(!new)>(f: T -> bool, s: seq<T>, x: T)
    ensures multiset(Filter(f, s))[x] == (if f(x) then multiset(s)[x] else 0)
  {
    if |s| == 0 {
    } else {
      FilterMultiplicity(f, s[1..], x);
      assert s == [s[0]] + s[1..];
      assert multiset(s) == multiset([s[0]]) + multiset(s[1..]);
      if f(s[0]) {
        assert multiset(Filter(f, s)) == multiset([s[0]]) + multiset(Filter(f, s[1..]));
      }
    }
  }

  /** Filtering with predicates that agree on the elements present gives the same list. */
  lemma {:induction false} FilterCongruent<T(!new)>(f: T -> bool, g: T -> bool, s: seq<T>)
    requires forall i :: 0 <= i < |s| ==> f(s[i]) == g(s[i])
    ensures Filter(f, s) == Filter(g, s)
  {
    if |s| > 0 {
      FilterCongruent(f, g, s[1..]);
    }
  }

  /** Filtering a list whose keys are distinct keeps them distinct. */
  lemma {:induction false} FilterKeepsDistinct<T(!new), K>(key: T -> K, f: T -> bool, s: seq<T>)
    requires DistinctBy(key, s)
    ensures DistinctBy(key, Filter(f, s))
  {
    if |s| > 0 {
      var t := Filter(f, s[1..]);
      assert DistinctBy(key, s[1..]) by {
        forall i, j | 0 <= i < j < |s[1..]| ensures key(s[1..][i]) != key(s[1..][j]) {
          assert s[1..][i] == s[i + 1] && s[1..][j] == s[j + 1];
        }
      }
      FilterKeepsDistinct(key, f, s[1..]);
      if f(s[0]) {
        forall k | 0 <= k < |t| ensures key(s[0]) != key(t[k]) {
          assert t[k] in s[1..];
          var m :| 0 <= m < |s[1..]| && s[1..][m] == t[k];
          assert s[m + 1] == t[k];
        }
        var r := Filter(f, s);
        assert r == [s[0]] + t;
        forall i, j | 0 <= i < j < |r| ensures key(r[i]) != key(r[j]) {
          if i == 0 {
            assert r[j] == t[j - 1];
          } else {
            assert r[i] == t[i - 1] && r[j] == t[j - 1];
          }
        }
      }
    }
  }
}

=== FILE: settings.dfy ===
/** The profile settings screen (frontend/app/tabs/profile/settings.tsx): a
    local buffer of the user's record, edited one field at a time through a
    modal or a date picker, loaded from and saved to the server. */
module Settings {
  import opened Options

  /** A JavaScript `Date`, reduced to its millisecond timestamp. */
  datatype Moment = Moment(epochMs: int)

  /** The buffered user record. `userName` is spelled `username` on the wire. */
  datatype UserData = UserData(
    id: string, userName: string, info: string, gender: string,
    birthday: string, phone: string, email: string, password: string)

  /** The keys of the buffered record. */
  datatype UserKey = Id | UserName | Info | Gender | Birthday | Phone | Email | Password

  function Get(u: UserData, k: UserKey): string {
    match k
    case Id => u.id
    case UserName => u.userName
    case Info => u.info
    case Gender => u.gender
    case Birthday => u.birthday
    case Phone => u.phone
    case Email => u.email
    case Password => u.password
  }

  /** `{ ...u, [k]: v }`: the one key takes the new value, every other key keeps its own. */
  function Set(u: UserData, k: UserKey, v: string): (r: UserData)
    ensures Get(r, k) == v
    ensures forall k' :: k' != k ==> Get(r, k') == Get(u, k')
  {
    match k
    case Id => u.(id := v)
    case UserName => u.(userName := v)
    case Info => u.(info := v)
    case Gender => u.(gender := v)
    case Birthday => u.(birthday := v)
    case Phone => u.(phone := v)
    case Email => u.(email := v)
    case Password => u.(password := v)
  }

  /** A row of the settings list: its caption and the key it edits. */
  datatype Field = Field(caption: string, key: UserKey)

  /** The rows offered for editing, in display order. */
  const Fields: seq<Field> := [
    Field("名稱", UserName),
    Field("簡介", Info),
    Field("性別", Gender),
    Field("生日", Birthday),
    Field("手機號碼", Phone),
    Field("Email", Email)
  ]

  predicate IsEditable(k: UserKey) {
    exists i :: 0 <= i < |Fields| && Fields[i].key == k
  }

  /** Exactly six keys are editable, each through one row; the id and the
      password never are. */
  lemma EditableKeys()
    ensures |Fields| == 6
    ensures forall i, j :: 0 <= i < j < |Fields| ==> Fields[i].key != Fields[j].key
    ensures forall k :: IsEditable(k) <==> k !in {Id, Password}
  {
    forall k ensures IsEditable(k) <==> k !in {Id, Password} {
      match k
      case UserName => assert Fields[0].key == k;
      case Info => assert Fields[1].key == k;
      case Gender => assert Fields[2].key == k;
      case Birthday => assert Fields[3].key == k;
      case Phone => assert Fields[4].key == k;
      case Email => assert Fields[5].key == k;
      case Id =>
      case Password =>
    }
  }

  /** What the modal is editing: typed text, or a date for the birthday. */
  datatype ModalValue = Typed(text: string) | DateValue(moment: Moment)

  /** The screen's state hooks. */
  datatype SettingsState = SettingsState(
    modalVisible: bool,
    selected: Option<Field>,
    modalValue: ModalValue,
    showDatePicker: bool,
    isLoading: bool,
    user: UserData)

  const EmptyUser: UserData := UserData("", "", "", "", "", "", "", "")

  /** State on mounting; `now` is the `new Date()` the modal value starts with. */
  function InitialState(now: Moment): (r: SettingsState)
    ensures Valid(r) && r.selected.None?
    ensures !r.modalVisible && !r.showDatePicker && !r.isLoading
    ensures r.modalValue == DateValue(now)
    ensures forall k :: Get(r.user, k) == ""
  {
    SettingsState(false, None, DateValue(now), false, false, EmptyUser)
  }

  /** The selected row, if any, is one of the offered rows. */
  predicate Valid(st: SettingsState) {
    st.selected.Some? ==> st.selected.value in Fields
  }

  /** Tapping a row. The birthday row opens the date picker preset to the
      stored birthday (read with `parse`) or to `now`; any other row opens
      the modal holding the field's current text. */
  function HandleFieldPress(st: SettingsState, f: Field, now: Moment, parse: string -> Moment): (r: SettingsState)
    requires f in Fields
    ensures Valid(r)
    ensures r.selected == Some(f) && r.user == st.user && r.isLoading == st.isLoading
    ensures f.key == Birthday ==>
              && r.showDatePicker && r.modalVisible == st.modalVisible
              && r.modalValue == DateValue(if st.user.birthday != "" then parse(st.user.birthday) else now)
    ensures f.key != Birthday ==>
              && r.modalVisible && r.showDatePicker == st.showDatePicker
              && r.modalValue == Typed(Get(st.user, f.key))
  {
    var chosen := st.(selected := Some(f));
    if f.key == Birthday then
      chosen.(showDatePicker := true,
              modalValue := DateValue(if st.user.birthday != "" then parse(st.user.birthday) else now))
    else
      chosen.(modalValue := Typed(Get(st.user, f.key)),
              modalVisible := true)
  }

  /** Typing in the modal, or choosing in the gender picker. */
  function EditModalValue(st: SettingsState, v: string): (r: SettingsState)
    ensures r.modalValue == Typed(v)
    ensures r.user == st.user && r.selected == st.selected && r.modalVisible == st.modalVisible
    ensures r.showDatePicker == st.showDatePicker && r.isLoading == st.isLoading
  {
    st.(modalValue := Typed(v))
  }

  /** The modal's save button. With no selected row nothing happens;
      otherwise the selected key takes the modal's value (a date is stored as
      its `isoDay` rendering) and the modal closes. */
  function HandleSave(st: SettingsState, isoDay: Moment -> string): (r: SettingsState)
    ensures st.selected.None? ==> r == st
    ensures st.selected.Some? ==>
              && !r.modalVisible
              && Get(r.user, st.selected.value.key)
                 == (match st.modalValue case Typed(t) => t case DateValue(m) => isoDay(m))
              && (forall k :: k != st.selected.value.key ==> Get(r.user, k) == Get(st.user, k))
              && r.selected == st.selected && r.showDatePicker == st.showDatePicker
              && r.modalValue == st.modalValue && r.isLoading == st.isLoading
  {
    match st.selected
    case None => st
    case Some(f) =>
      var v := match st.modalValue case Typed(t) => t case DateValue(m) => isoDay(m);
      st.(user := Set(st.user, f.key, v), modalVisible := false)
  }

  /** A save from a valid state never touches the id or the password. */
  lemma SaveKeepsIdAndPassword(st: SettingsState, isoDay: Moment -> string)
    requires Valid(st)
    ensures HandleSave(st, isoDay).user.id == st.user.id
    ensures HandleSave(st, isoDay).user.password == st.user.password
  {
    if st.selected.Some? {
      EditableKeys();
      var i :| 0 <= i < |Fields| && Fields[i] == st.selected.value;
      assert IsEditable(st.selected.value.key);
      assert Get(HandleSave(st, isoDay).user, Id) == Get(st.user, Id);
      assert Get(HandleSave(st, isoDay).user, Password) == Get(st.user, Password);
    }
  }

  /** Tapping a text row and saving what it preloaded leaves the record as it was. */
  lemma PressThenSaveIsIdentity(st: SettingsState, f: Field, now: Moment, parse: string -> Moment, isoDay: Moment -> string)
    requires f in Fields && f.key != Birthday
    ensures HandleSave(HandleFieldPress(st, f, now, parse), isoDay).user == st.user
  {
    var r := HandleSave(HandleFieldPress(st, f, now, parse), isoDay);
    assert forall k :: Get(r.user, k) == Get(st.user, k);
    UserDataExtensional(r.user, st.user);
  }

  lemma UserDataExtensional(a: UserData, b: UserData)
    requires forall k :: Get(a, k) == Get(b, k)
    ensures a == b
  {
    assert Get(a, Id) == Get(b, Id) && Get(a, UserName) == Get(b, UserName);
    assert Get(a, Info) == Get(b, Info) && Get(a, Gender) == Get(b, Gender);
    assert Get(a, Birthday) == Get(b, Birthday) && Get(a, Phone) == Get(b, Phone);
    assert Get(a, Email) == Get(b, Email) && Get(a, Password) == Get(b, Password);
  }

  /** The date picker's change handler: always hides the picker; a chosen
      date becomes the birthday, rendered by `isoDay`, and nothing else changes. */
  function HandleDateChange(st: SettingsState, picked: Option<Moment>, isoDay: Moment -> string): (r: SettingsState)
    ensures !r.showDatePicker
    ensures r.modalVisible == st.modalVisible && r.selected == st.selected
    ensures r.modalValue == st.modalValue && r.isLoading == st.isLoading
    ensures picked.None? ==> r.user == st.user
    ensures picked.Some? ==>
              && r.user.birthday == isoDay(picked.value)
              && forall k :: k != Birthday ==> Get(r.user, k) == Get(st.user, k)
  {
    var hidden := st.(showDatePicker := false);
    match picked
    case None => hidden
    case Some(m) => hidden.(user := st.user.(birthday := isoDay(m)))
  }

  /** The modal's cancel button: hides the modal and keeps the buffered record. */
  function CloseModal(st: SettingsState): (r: SettingsState)
    ensures !r.modalVisible
    ensures r.user == st.user && r.selected == st.selected && r.modalValue == st.modalValue
    ensures r.showDatePicker == st.showDatePicker && r.isLoading == st.isLoading
  {
    st.(modalVisible := false)
  }

  /** The user record as the server sends and receives it. */
  datatype ServerUser = ServerUser(
    id: string, username: string, info: string, gender: string,
    birthday: string, phone: string, email: string, password: string)

  /** The mapping applied when the record is loaded. */
  function FromServer(s: ServerUser): (u: UserData)
    ensures u.userName == s.username && u.password == s.password && u.id == s.id
    ensures u.info == s.info && u.gender == s.gender && u.birthday == s.birthday
    ensures u.phone == s.phone && u.email == s.email
  {
    UserData(s.id, s.username, s.info, s.gender, s.birthday, s.phone, s.email, s.password)
  }

  /** The payload sent when saving. */
  function ToServer(u: UserData): (s: ServerUser)
    ensures s.username == u.userName && s.password == u.password && s.id == u.id
    ensures s.info == u.info && s.gender == u.gender && s.birthday == u.birthday
    ensures s.phone == u.phone && s.email == u.email
  {
    ServerUser(u.id, u.userName, u.info, u.gender, u.birthday, u.phone, u.email, u.password)
  }

  /** Loading then saving sends back exactly what was loaded, and a buffered
      record survives the trip to the server and back. */
  lemma WireRoundTrip(s: ServerUser, u: UserData)
    ensures ToServer(FromServer(s)) == s
    ensures FromServer(ToServer(u)) == u
  {
  }

  /** Applying the loaded record; a failed request leaves the buffer as it was. */
  function LoadUser(st: SettingsState, fetched: Option<ServerUser>): (r: SettingsState)
    ensures fetched.Some? ==> ToServer(r.user) == fetched.value
    ensures fetched.None? ==> r == st
    ensures r.modalVisible == st.modalVisible && r.selected == st.selected
    ensures r.modalValue == st.modalValue && r.showDatePicker == st.showDatePicker && r.isLoading == st.isLoading
  {
    match fetched
    case Some(s) => st.(user := FromServer(s))
    case None => st
  }

  /** Pressing the header's save button: the spinner shows and the whole
      record is sent. */
  function StartSaveAll(st: SettingsState): (r: (SettingsState, ServerUser))
    ensures r.0.isLoading && r.0.user == st.user && r.0.selected == st.selected
    ensures r.0.modalVisible == st.modalVisible && r.0.modalValue == st.modalValue
    ensures r.0.showDatePicker == st.showDatePicker
    ensures FromServer(r.1) == st.user
  {
    (st.(isLoading := true), ToServer(st.user))
  }

  /** How a save ends for the user. */
  datatype SaveOutcome = NavigatedBack | ErrorShown

  /** The save's response: `Some(status)`, or `None` if the request threw.
      Only status 200 goes back; every other ending shows the error. The
      spinner stops either way. */
  function FinishSaveAll(st: SettingsState, response: Option<int>): (r: (SettingsState, SaveOutcome))
    ensures !r.0.isLoading
    ensures r.0.user == st.user && r.0.selected == st.selected
    ensures r.0.modalVisible == st.modalVisible && r.0.modalValue == st.modalValue
    ensures r.0.showDatePicker == st.showDatePicker
    ensures r.1 == NavigatedBack <==> response == Some(200)
  {
    if response == Some(200) then (st.(isLoading := false), NavigatedBack)
    else (st.(isLoading := false), ErrorShown)
  }

  /** Everything that can happen to the screen: the user's taps and edits
      (a row tap carries the time `new Date()` reads then) and the two
      server answers. */
  datatype Event =
    | PressRow(row: Field, at: Moment)
    | TypeValue(text: string)
    | SaveField
    | PickDate(picked: Option<Moment>)
    | Cancel
    | Loaded(fetched: Option<ServerUser>)
    | SaveAllPressed
    | SaveAllAnswered(response: Option<int>)

  /** Only the listed rows can be tapped. */
  predicate Offered(e: Event) {
    e.PressRow? ==> e.row in Fields
  }

  /** One event applied to the screen. Every step keeps the selected row
      among the listed ones, and only a loaded record can change the id or
      the password. */
  function Step(st: SettingsState, e: Event, parse: string -> Moment, isoDay: Moment -> string): (r: SettingsState)
    requires Offered(e)
    ensures Valid(st) ==> Valid(r)
    ensures Valid(st) && !e.Loaded? ==> r.user.id == st.user.id && r.user.password == st.user.password
  {
    match e
    case PressRow(f, now) => HandleFieldPress(st, f, now, parse)
    case TypeValue(v) => EditModalValue(st, v)
    case SaveField =>
      assert Valid(st) ==> HandleSave(st, isoDay).user.id == st.user.id
                           && HandleSave(st, isoDay).user.password == st.user.password by {
        if Valid(st) {
          SaveKeepsIdAndPassword(st, isoDay);
        }
      }
      HandleSave(st, isoDay)
    case PickDate(d) => HandleDateChange(st, d, isoDay)
    case Cancel => CloseModal(st)
    case Loaded(u) => LoadUser(st, u)
    case SaveAllPressed => StartSaveAll(st).0
    case SaveAllAnswered(response) => FinishSaveAll(st, response).0
  }

  /** A run of events, applied in order. */
  function Run(st: SettingsState, events: seq<Event>, parse: string -> Moment, isoDay: Moment -> string): (r: SettingsState)
    requires forall i :: 0 <= i < |events| ==> Offered(events[i])
    ensures Valid(st) ==> Valid(r)
    decreases |events|
  {
    if |events| == 0 then st
    else Run(Step(st, events[0], parse, isoDay), events[1..], parse, isoDay)
  }

  /** From any state the screen can reach, saving the modal never touches
      the id or the password. */
  lemma ReachableSaveKeepsIdAndPassword(now: Moment, events: seq<Event>, parse: string -> Moment, isoDay: Moment -> string)
    requires forall i :: 0 <= i < |events| ==> Offered(events[i])
    ensures var st := Run(InitialState(now), events, parse, isoDay);
            && HandleSave(st, isoDay).user.id == st.user.id
            && HandleSave(st, isoDay).user.password == st.user.password
  {
    SaveKeepsIdAndPassword(Run(InitialState(now), events, parse, isoDay), isoDay);
  }

  /** Until a record is loaded from the server, the id and the password stay
      as they were, whatever is typed, picked or saved. */
  lemma {:induction false} UnloadedKeepsIdAndPassword(st: SettingsState, events: seq<Event>, parse: string -> Moment, isoDay: Moment -> string)
    requires Valid(st)
    requires forall i :: 0 <= i < |events| ==> Offered(events[i]) && !events[i].Loaded?
    ensures Run(st, events, parse, isoDay).user.id == st.user.id
    ensures Run(st, events, parse, isoDay).user.password == st.user.password
    decreases |events|
  {
    if |events| > 0 {
      UnloadedKeepsIdAndPassword(Step(st, events[0], parse, isoDay), events[1..], parse, isoDay);
    }
  }
}

=== FILE: text.dfy ===
/** The string operations the search box relies on: `toLowerCase` (ASCII
    letters only), `trim` and `includes`. */
module Text {

  /** Lower-cases an ASCII capital letter; every other character is unchanged. */
  function LowerChar(c: char): (d: char)
    ensures 'A' <= c <= 'Z' ==> d as int == c as int + 32
    ensures !('A' <= c <= 'Z') ==> d == c
  {
    if 'A' <= c <= 'Z' then (c as int + 32) as char else c
  }

  /** `s.toLowerCase()`, restricted to ASCII letters. */
  function Lower(s: string): (r: string)
    ensures |r| == |s|
    ensures forall i :: 0 <= i < |s| ==> r[i] == LowerChar(s[i])
  {
    if |s| == 0 then "" else [LowerChar(s[0])] + Lower(s[1..])
  }

  /** The characters `String.prototype.trim` removes: the ECMAScript
      WhiteSpace and LineTerminator code points. */
  predicate IsWhitespace(c: char) {
    || c == '\t' || c == '\n' || c == '\U{B}' || c == '\U{C}' || c == '\r'
    || c == ' ' || c == '\U{A0}' || c == '\U{1680}'
    || ('\U{2000}' <= c <= '\U{200A}')
    || c == '\U{2028}' || c == '\U{2029}' || c == '\U{202F}' || c == '\U{205F}'
    || c == '\U{3000}' || c == '\U{FEFF}'
  }

  predicate IsBlank(s: string) {
    forall i :: 0 <= i < |s| ==> IsWhitespace(s[i])
  }

  function TrimStart(s: string): string {
    if |s| > 0 && IsWhitespace(s[0]) then TrimStart(s[1..]) else s
  }

  function TrimEnd(s: string): string {
    if |s| > 0 && IsWhitespace(s[|s| - 1]) then TrimEnd(s[..|s| - 1]) else s
  }

  /** `s.trim()`. */
  function Trim(s: string): string {
    TrimEnd(TrimStart(s))
  }

  /** `h.includes(n)`, decided by trying every starting position. */
  predicate Contains(h: string, n: string) {
    (|n| <= |h| && h[..|n|] == n) || (|h| > 0 && Contains(h[1..], n))
  }

  /** `n` appears in `h` starting at position `i`. */
  ghost predicate MatchesAt(h: string, n: string, i: int) {
    0 <= i && i + |n| <= |h| && h[i..i + |n|] == n
  }

  /** `n` occurs in `h` as a contiguous block. */
  ghost predicate OccursIn(n: string, h: string) {
    exists i :: MatchesAt(h, n, i)
  }

  lemma {:induction false} TrimStartBlank(s: string)
    ensures TrimStart(s) == "" <==> IsBlank(s)
  {
    if |s| > 0 && IsWhitespace(s[0]) {
      TrimStartBlank(s[1..]);
      assert IsBlank(s) <==> IsBlank(s[1..]) by {
        if IsBlank(s[1..]) {
          forall i | 0 <= i < |s| ensures IsWhitespace(s[i]) {
            if i > 0 { assert s[i] == s[1..][i - 1]; }
          }
        }
      }
    }
  }

  lemma {:induction false} TrimEndEmpty(s: string)
    ensures TrimEnd(s) == "" <==> IsBlank(s)
  {
    if |s| > 0 && IsWhitespace(s[|s| - 1]) {
      TrimEndEmpty(s[..|s| - 1]);
      assert IsBlank(s) <==> IsBlank(s[..|s| - 1]) by {
        if IsBlank(s[..|s| - 1]) {
          forall i | 0 <= i < |s| ensures IsWhitespace(s[i]) {
            if i < |s| - 1 { assert s[i] == s[..|s| - 1][i]; }
          }
        }
      }
    }
  }

  lemma {:induction false} TrimStartNotBlankStart(s: string)
    ensures |TrimStart(s)| > 0 ==> !IsWhitespace(TrimStart(s)[0])
  {
    if |s| > 0 && IsWhitespace(s[0]) {
      TrimStartNotBlankStart(s[1..]);
    }
  }

  lemma {:induction false} TrimEndKeepsNonBlankStart(s: string)
    requires |s| > 0 && !IsWhitespace(s[0])
    ensures TrimEnd(s) != ""
  {
    if IsWhitespace(s[|s| - 1]) {
      TrimEndKeepsNonBlankStart(s[..|s| - 1]);
    }
  }

  /** Lower-casing twice is lower-casing once. */
  lemma LowerIdempotent(s: string)
    ensures Lower(Lower(s)) == Lower(s)
  {
  }

  /** Lower-casing neither creates nor removes whitespace. */
  lemma LowerKeepsBlankness(s: string)
    ensures IsBlank(Lower(s)) <==> IsBlank(s)
  {
    assert forall i :: 0 <= i < |s| ==> (IsWhitespace(Lower(s)[i]) <==> IsWhitespace(s[i]));
  }

  /** A string trims to nothing exactly when it consists of whitespace only. */
  lemma TrimEmptyIffBlank(s: string)
    ensures Trim(s) == "" <==> IsBlank(s)
  {
    TrimStartBlank(s);
    var t := TrimStart(s);
    if t != "" {
      TrimStartNotBlankStart(s);
      TrimEndKeepsNonBlankStart(t);
    }
  }

  /** The positional search agrees with the occurrence definition, both ways. */
  lemma {:induction false} ContainsIffOccurs(h: string, n: string)
    ensures Contains(h, n) <==> OccursIn(n, h)
  {
    if |n| <= |h| && h[..|n|] == n {
      assert MatchesAt(h, n, 0);
    } else if |h| > 0 {
      ContainsIffOccurs(h[1..], n);
      if OccursIn(n, h[1..]) {
        var i :| MatchesAt(h[1..], n, i);
        assert h[i + 1..i + 1 + |n|] == h[1..][i..i + |n|];
        assert MatchesAt(h, n, i + 1);
      }
      if OccursIn(n, h) {
        var i :| MatchesAt(h, n, i);
        assert i != 0;
        assert h[1..][i - 1..i - 1 + |n|] == h[i..i + |n|];
        assert MatchesAt(h[1..], n, i - 1);
      }
    }
  }
}
